=== FILE: README.md ===
# StockPulse backend — a Dafny model

StockPulse streams simulated stock prices to browser clients over WebSockets.
This project models the in-memory core of its backend:

- the **metrics tracker** (`backend/src/metrics-tracker.js`): a connection
  counter, a cumulative sent-message counter and a log of send times capped at
  1000 entries with first-in-first-out eviction, the windowed
  messages-per-second query, the metrics snapshot and `reset`;
- the **price simulator** (`backend/src/stock-simulator.js`): the fixed table of
  eight instruments, the bounded random walk of `updatePrices` with its 0.01
  floor, rounding to cents, and `getCurrentPrices`;
- the **broadcast server** (`backend/src/server.js`): the client registry and
  the WebSocket handlers (accept, message, close, error), one broadcast pass,
  the graceful-shutdown close loop, and the choice of AI provider, key,
  endpoint and model from the environment.

Everything is a pure function over immutable records. The clock (`Date.now()`),
the random draw (`Math.random()`), each socket's ready-state and whether its
`send` throws are passed in as parameters. Each callback of the event loop is
one atomic step (`Lifecycle.Step`) over an explicit `Server.State`.

Modules, one per component:

| file | module | models |
|---|---|---|
| `wrappers.dfy` | `Wrappers` | `Option`, standing in for `undefined` |
| `rounding.dfy` | `Rounding` | `parseFloat(x.toFixed(2))` on exact reals |
| `metrics.dfy` | `Metrics` | `MetricsTracker` |
| `simulator.dfy` | `Simulator` | `StockSimulator` |
| `server.dfy` | `Server` | registry, handlers, broadcast pass, shutdown loop |
| `lifecycle.dfy` | `Lifecycle` | the event loop as a state machine, traces, invariants |
| `provider.dfy` | `Provider` | AI provider/key/endpoint/model selection |

Modelling choices:

- Prices and rates are `real`. `Round2` rounds the magnitude half-up to cents,
  `floor(100·x + 0.5) / 100`, and puts the sign back, as `toFixed` does. For
  the non-negative prices this is exactly `floor(100·x + 0.5) / 100`.
- The rounded price is the one stored back into the table
  (`stock-simulator.js:33`). So every stored price is a whole number of cents
  and at least 0.01.
- A random draw `u` is a value of `Math.random()`, in `[0, 1)`. The change is
  `price · volatility · (u − 0.5) · 2`.
- The registry is a `set` of socket ids. A broadcast pass or the shutdown loop
  receives the set's iteration order as a sequence that lists every member
  exactly once. `Set.forEach` gives the same visit order here, because a pass
  only ever deletes the element it is visiting.
- Each socket's fate in a pass is one of `NotOpen` (skipped), `Delivered` or
  `Throws`. An inbound frame after parsing is `Malformed`, `Ping(clientTime)`
  or `Other`.
- `close` and `error` run the same body, `Server.Disconnect`, through
  `Server.OnClose` and `Server.OnError`.
- The effects of a step are listed as actions: `Send(socket, frame)` for a
  frame handed to a socket without an exception, and `CloseSocket(socket)` for
  a close request.

Points where the code's behaviour is easy to misread, and which the model
follows exactly:

- The stored price is the rounded one: the next update starts from the
  two-decimal value, not from a full-precision price
  (`stock-simulator.js:33`).
- A send to a socket that is not OPEN is skipped, and the socket stays
  registered (`server.js:235`). Only a throwing send removes a socket.
- The connection counter is decremented by the `close` handler, by the
  `error` handler and by a throwing send, whether or not the socket is still
  registered (`server.js:206`, `:213`, `:243`). `Lifecycle.UnpairedDisconnectDrifts`
  shows the counter falling below the registry's size.
- The percentage change divides the clamped difference `newPrice − oldPrice`
  by the old price (`stock-simulator.js:29`). It equals change / old price only
  when the clamp does not fire (`Simulator.UnclampedMove`).

## Model

| member | source | states |
|---|---|---|
| Rounding.Round2 | backend/src/stock-simulator.js:33-35 | the two-decimal rounding of a value is a whole number of cents within half a cent of the value, keeps its sign, and resolves an exact half-cent tie away from zero (strictly above x − 0.005 for x ≥ 0, strictly below x + 0.005 for x < 0) |
| Rounding.Round2KeepsCent | backend/src/stock-simulator.js:28-33 | rounding a clamped price (at least 0.01) never takes it below 0.01 |
| Rounding.Round2OfCents | backend/src/stock-simulator.js:33 | a value that is already a whole number of cents is left unchanged by rounding |
| Rounding.Round2Odd | backend/src/stock-simulator.js:34-35 | rounding a negative change or percentage mirrors rounding its magnitude |
| Rounding.Round2Idempotent | backend/src/stock-simulator.js:33 | re-rounding a stored price does not move it |
| Metrics.NewTracker | backend/src/metrics-tracker.js:3-9 | a fresh tracker has no connections, no sends, an empty log and its clock started at the creation time, and its snapshot at creation time reports zero uptime, zero throughput and zero total |
| Metrics.AddConnection | backend/src/metrics-tracker.js:11-13 | the connection counter goes up by exactly one; nothing else changes |
| Metrics.RemoveConnection | backend/src/metrics-tracker.js:15-17 | the counter goes down by exactly one, with no clamp at zero; nothing else changes |
| Metrics.AddThenRemove | backend/src/metrics-tracker.js:11-17 | adding and removing a connection undo each other, in either order |
| Metrics.RecordMessage | backend/src/metrics-tracker.js:19-28 | one send adds exactly one to the total even when an entry is evicted; the newest log entry is the send time; a log within capacity stays within capacity and becomes the newest 1000 of the old log plus the new time |
| Metrics.RetainedAppend | backend/src/metrics-tracker.js:22-27 | evicting before or after appending one more time gives the same log |
| Metrics.RecordAllRetainsNewest | backend/src/metrics-tracker.js:22-27 | first-in-first-out eviction: after any run of sends the log is the newest 1000 of the old log followed by the new send times, in recording order |
| Metrics.RecordAllCounts | backend/src/metrics-tracker.js:19-20 | a run of n sends adds exactly n to the total and changes neither the connection counter nor the start time |
| Metrics.LogOfFreshTracker | backend/src/metrics-tracker.js:7-27 | from a new tracker the log is exactly the last min(n, 1000) of the n recorded send times |
| Metrics.Since | backend/src/metrics-tracker.js:36 | the window filter keeps every entry at or after the cutoff exactly as many times as it occurs in the log and drops every older one (multiset characterisation), so its length is the number of recent sends |
| Metrics.SinceAllRecent | backend/src/metrics-tracker.js:36 | when every entry is inside the window the filter keeps the whole log |
| Metrics.SinceAllStale | backend/src/metrics-tracker.js:36 | when every entry is older than the cutoff the filter keeps nothing |
| Metrics.MessagesPerSecond | backend/src/metrics-tracker.js:31-38 | the rate is the number of logged sends at or after now − 1000·w (counted with repetition, as `Since` pins down) divided by w; it is 0 on an empty log, never negative, and at most 1000/w while the log is within capacity |
| Metrics.RateOfFreshSends | backend/src/metrics-tracker.js:31-38 | k sends all inside the window give a rate of exactly k/w |
| Metrics.GetMetrics | backend/src/metrics-tracker.js:41-53 | the snapshot reports the connection counter and the total as stored, throughput as the floor of the 5-second rate (between 0 and 200), the rate rounded to cents, and uptime as the floor of the elapsed milliseconds over 1000 |
| Metrics.Reset | backend/src/metrics-tracker.js:55-59 | reset zeroes the total, empties the log and restarts the clock, but keeps the connection counter |
| Metrics.ResetReportsNothing | backend/src/metrics-tracker.js:41-59 | right after a reset the snapshot shows no sends, zero rate, zero throughput and zero uptime, with connections unchanged |
| Simulator.InitialStocks | backend/src/stock-simulator.js:4-13 | the starting table lists eight instruments with pairwise distinct symbols, volatilities strictly between 0 and 0.05, and no change, percentage or timestamp yet; `Simulator.InitialStocksValid` adds that every price is cent-valued and at least 0.01 |
| Simulator.GeneratePriceChange | backend/src/stock-simulator.js:17-20 | for any draw in [0,1) the change is at most price × volatility in size, and zero volatility gives zero change |
| Simulator.PriceMove | backend/src/stock-simulator.js:27-29 | the new price is the old price plus the change, or the 0.01 floor when that sum would fall below it; the percentage times the old price is 100 × (new − old) |
| Simulator.UnclampedMove | backend/src/stock-simulator.js:27-29 | when the clamp does not fire, new − old equals the change and the percentage is change / old × 100 |
| Simulator.UpdateStock | backend/src/stock-simulator.js:26-37 | one entry after an update keeps its symbol and volatility, stores a cent-valued price of at least 0.01, carries the call's timestamp, and stores price, change and percentage each as a whole number of cents within half a cent of the unrounded move, with an exact half-cent tie stored at the larger magnitude as `toFixed(2)` does |
| Simulator.UpdatePrices | backend/src/stock-simulator.js:23-41 | an update applies `UpdateStock` with its own draw to each entry, in table order, so each price follows the bounded random walk; every symbol and volatility is kept, every entry gets the same timestamp, and every price is cent-valued and at least 0.01 |
| Simulator.ZeroVolatilityKeepsPrice | backend/src/stock-simulator.js:17-35 | with zero volatility the change and percentage are 0 and a cent-valued price is stored unchanged |
| Simulator.GetCurrentPrices | backend/src/stock-simulator.js:44-49 | the read returns every stored entry unchanged except for a fresh timestamp, in table order |
| Simulator.Simulate | backend/src/stock-simulator.js:26-40 | after any sequence of updates the table keeps its length, symbols and volatilities, and every price stays at least 0.01, so the next division by the old price is defined |
| Simulator.InitialStocksValid | backend/src/stock-simulator.js:4-13 | the starting table has eight entries, each a cent-valued price of at least 0.01 |
| Simulator.PricesStayAboveFloor | backend/src/stock-simulator.js:3-41 | starting from the initial table, no sequence of updates drives any stored price below 0.01 |
| Server.Start | backend/src/server.js:25-45 | the process starts with the eight-instrument initial table, a fresh tracker (zero counter, no sends, empty log, clock started now), an empty registry and a running interval (started at `server.js:253`), and the start state is valid (prices on the floor-respecting cent grid, log within capacity) |
| Server.Accept | backend/src/server.js:168-182 | accept adds the socket to the registry, raises the counter by one, sends exactly one `initial` frame with the current prices to that socket, and touches nothing else |
| Server.OnMessage | backend/src/server.js:185-200 | a ping gets exactly one pong echoing its client time; a malformed or other frame gets no reply; no frame changes the state |
| Server.Disconnect | backend/src/server.js:203-214 | close or error removes the socket (a no-op when absent) and always decrements the counter, the tracker changing exactly as `Metrics.RemoveConnection` says (total, log and uptime clock kept); prices and the timer are untouched |
| Server.DisconnectTwice | backend/src/server.js:203-214 | a second close or error for one socket leaves the registry as it was but decrements the counter again |
| Server.Visit | backend/src/server.js:234-244 | one socket of a pass: skipped when not OPEN, a frame plus one logged send and one success when delivered, removal plus one decrement when the send throws; its effect over a pass is stated by `Server.FanOutCounters`, `Server.FanOutSends` and `Server.FanOutMembership` |
| Server.FanOut | backend/src/server.js:233-245 | the `forEach` over the registry snapshot as a fold of `Server.Visit`; pinned by `Server.FanOutCounters`, `Server.FanOutMembership`, `Server.FanOutSize`, `Server.FanOutSends` and, for the loop form with its tally, `Server.BroadcastPass` |
| Server.Frame | backend/src/server.js:222-230 | the `update` frame carries exactly the prices the update pass produces (cent-valued, in table order) and exactly the metrics snapshot taken before any send of the pass, stamped with the server time |
| Server.FanOutCounters | backend/src/server.js:232-245 | in a pass the success tally, the number of frames and the growth of the total all equal the number of delivered sends; the counter drops by the number of throwing sends |
| Server.FanOutLogBound | backend/src/server.js:233-239 | the send log stays within its capacity through a pass |
| Server.FanOutSends | backend/src/server.js:233-239 | every frame of a pass is the one shared message, every delivered socket receives it, and only delivered sockets do |
| Server.FanOutMembership | backend/src/server.js:233-245 | after a pass a visited socket is still registered exactly when its send did not throw; skipped sockets stay; sockets outside the snapshot are untouched |
| Server.FanOutSize | backend/src/server.js:240-244 | the registry shrinks by exactly the number of throwing sends |
| Server.EnumerationSize | backend/src/server.js:220 | the snapshot of the registry is as long as the registry is large, so an empty registry gives an empty pass |
| Server.Broadcast | backend/src/server.js:219-250 | an empty registry means no price update, no metrics change and no sends; otherwise the prices are updated exactly once and one identical frame reaches exactly the OPEN sockets whose send did not throw, whose number is the growth of the total; throwing sockets are removed and each costs one connection; every frame sent carries exactly the prices the server now stores |
| Server.BroadcastPass | backend/src/server.js:219-250 | the loop over the snapshot with its success tally computes the same pass as the fold, and the tally is the number of delivered sends |
| Server.CloseAll | backend/src/server.js:261-267 | the shutdown loop issues exactly the close requests `CloseRequests(order)` that `Server.Shutdown` lists, one per socket in order, carrying on past closes that throw, and counts the failures |
| Server.Shutdown | backend/src/server.js:256-267 | shutdown clears the interval, asks every registered socket and only those to close, one request per socket, and leaves registry, counters and prices as they were |
| Lifecycle.Step | backend/src/server.js:168-267 | every callback keeps prices at least 0.01 and the log within capacity; prices move only on a tick with a running interval and clients; a cleared interval stays cleared |
| Lifecycle.Run | backend/src/server.js:253-274 | any admissible trace of callbacks keeps the price floor and the log bound, and never restarts a cleared interval |
| Lifecycle.StartIsValid | backend/src/server.js:25-27 | the start state keeps the price floor and the log bound, with zero connections and an empty registry |
| Lifecycle.StoppedPricesFrozen | backend/src/server.js:256-258 | once the interval is cleared no later callback moves a price |
| Lifecycle.TickAfterShutdownIsInert | backend/src/server.js:253-258 | after a termination signal a tick sends nothing and changes nothing |
| Lifecycle.StepKeepsBalance | backend/src/server.js:168-245 | the counter equals the registry's size through every accept of a new socket, close or error of a registered one, message, tick and shutdown |
| Lifecycle.UnpairedDisconnectDrifts | backend/src/server.js:203-207 | a close for a socket no longer registered leaves the registry alone but drops the counter one below the registry's size |
| Provider.Chosen | backend/src/server.js:31-37 | priority picks GROQ, then XAI, then OpenAI, by the first key that is set and non-empty, and there is a pick exactly when some key is |
| Provider.ApiKey | backend/src/server.js:31 | the key found by the `\|\|` chain is the chosen provider's key, and is not truthy when no provider is chosen; stated by `Provider.ClientMatchesProvider` |
| Provider.BaseUrl | backend/src/server.js:32-37 | the endpoint chosen by its own if-chain is the chosen provider's endpoint, and OpenAI's when no key is set; stated by `Provider.ClientMatchesProvider` |
| Provider.MakeClient | backend/src/server.js:39-42 | a client exists exactly when some key is set, with the chosen provider's key and endpoint; stated by `Provider.ClientMatchesProvider` |
| Provider.Model | backend/src/server.js:129-134 | the model picked per request is the chosen provider's model; stated by `Provider.ModelMatchesProvider` |
| Provider.ClientMatchesProvider | backend/src/server.js:31-42 | there is a client exactly when some key is set, and its key and endpoint both belong to the picked provider |
| Provider.ModelMatchesProvider | backend/src/server.js:129-134 | the model the analysis route uses belongs to the same provider as the key and endpoint |

## Left out

- Fastify, CORS and WebSocket plugin registration, `listen`, its exit codes,
  `fastify.close()` and `process.exit` (`server.js:9-23`, `:269-295`):
  framework and process plumbing.
- The HTTP GET routes (`server.js:51-85`): `/` returns a constant service
  descriptor and `/health` returns the clock and the process uptime, neither
  touching the core; `/metrics` and `/stocks` return `Metrics.GetMetrics` and
  `Simulator.GetCurrentPrices` (plus a clock reading).
- The analysis route's request validation, prompt, completion call and
  `JSON.parse` of the answer (`server.js:88-163`): a call into a third-party
  API. Only the provider, key, endpoint and model choice is modelled.
- `JSON.stringify` and `JSON.parse`: frames are datatypes, and parsing is
  represented by the `Inbound` variants. A ping whose `clientTime` is not an
  integer is not distinguished.
- `Math.random()` and the `clientId` string (`server.js:169`): both are
  parameters.
- `Date.now()`: one clock reading per callback. The source reads the clock
  several times within one synchronous callback, for example in
  `getCurrentPrices` and for `serverTime`, or once per `recordMessage`. The
  model assumes all those readings return the same millisecond.
- `setInterval` timing and the 1000 ms period: the interval appears only as
  the `timerActive` flag. Ticks are events in a trace.
- Logging, including the success-count debug line, and the socket-level
  behaviour of `ws`: frames are not delivered or queued, only handed over. A
  throw from the `initial` or `pong` send is not modelled.
- IEEE-754 floating point: prices, rates and percentages are exact reals.
  Rounding follows `toFixed(2)` on exact values.
- Metrics.MessagesPerSecond: takes the window as a positive whole number of
  seconds. The source is called only with its default of 5, and a zero window
  would divide by zero in the source.
- Simulator.UpdatePrices: requires every old price to be positive, because the
  source divides by it. `Simulator.Simulate` and `Lifecycle.Run` show that this
  always holds from the initial table.
- Metrics.RecordMessage: the log-content guarantee is stated for a log within
  capacity. Every reachable tracker has such a log (`Lifecycle.Run`).
- Server.Broadcast: states only that the send log stays within capacity. The
  exact log contents follow from `Metrics.RecordAllRetainsNewest`, since a pass
  records one `now` per delivered send.
- Acceptance of new connections after a termination signal: the source does
  not gate `accept` on shutdown, and the listener's closing is framework
  behaviour.
- The frontend (`frontend/`), the load-test client (`backend/tests/load-test.js`)
  and the deployment configuration (`ecosystem.config.js`): UI, static
  serving, a network load generator and configuration, outside the backend core.

=== FILE: lifecycle.dfy ===
/** The whole backend as one event-driven state machine: every callback the
    event loop can run is one atomic step over the server state. */
module Lifecycle {
  import opened Simulator
  import opened Server

  /** The callbacks the event loop runs. A tick carries the snapshot order of
      the registry, each socket's outcome and the draws for the instruments;
      a termination signal carries the registry's iteration order. */
  datatype Event =
    | Connected(sock: SocketId, clientId: string)
    | Received(sock: SocketId, inbound: Inbound)
    | Closed(sock: SocketId)
    | Errored(sock: SocketId)
    | Tick(order: seq<SocketId>, outcomes: seq<SendOutcome>, draws: seq<real>)
    | Terminate(order: seq<SocketId>)

  /** An event stamped with the clock reading its callback sees. */
  datatype Timed = Timed(ev: Event, now: int)

  /** The parameters of an event describe the state it meets: snapshots list
      the registry, one outcome per socket, one draw per instrument. */
  predicate Admissible(st: State, ev: Event) {
    match ev
    case Tick(order, outcomes, draws) =>
      Enumerates(order, st.clients) && |outcomes| == |order| && |draws| == |st.stocks| && ValidDraws(draws)
    case Terminate(order) => Enumerates(order, st.clients)
    case _ => true
  }

  /** One callback. Ticks after the interval has been cleared do nothing. */
  function Step(st: State, ev: Event, now: int): (e: Effect)
    requires Valid(st) && Admissible(st, ev)
    ensures Valid(e.state)
    ensures e.state.stocks != st.stocks ==> ev.Tick? && st.timerActive && st.clients != {}
    ensures !st.timerActive ==> !e.state.timerActive
  {
    match ev
    case Connected(sock, clientId) => Accept(st, sock, clientId, now)
    case Received(sock, inbound) => OnMessage(st, sock, inbound, now)
    case Closed(sock) => OnClose(st, sock)
    case Errored(sock) => OnError(st, sock)
    case Tick(order, outcomes, draws) =>
      if st.timerActive then Broadcast(st, order, outcomes, draws, now) else Effect(st, [])
    case Terminate(order) => Shutdown(st, order)
  }

  /** Every event of the trace fits the state it meets. */
  predicate AdmissibleRun(st: State, trace: seq<Timed>)
    requires Valid(st)
    decreases |trace|
  {
    |trace| == 0 ||
    (Admissible(st, trace[0].ev) && AdmissibleRun(Step(st, trace[0].ev, trace[0].now).state, trace[1..]))
  }

  /** The state after running a trace of callbacks. */
  function Run(st: State, trace: seq<Timed>): (r: State)
    requires Valid(st) && AdmissibleRun(st, trace)
    ensures Valid(r)
    ensures !st.timerActive ==> !r.timerActive
    decreases |trace|
  {
    if |trace| == 0 then st
    else Run(Step(st, trace[0].ev, trace[0].now).state, trace[1..])
  }

  /** The starting state is valid, so by `Run` every reachable state keeps
      the price floor and the log bound. */
  lemma StartIsValid(now: int)
    ensures Valid(Start(now))
    ensures Balanced(Start(now))
  {
    InitialStocksValid();
  }

  /** Once the interval is cleared no later callback moves a price. */
  lemma {:induction false} StoppedPricesFrozen(st: State, trace: seq<Timed>)
    requires Valid(st) && AdmissibleRun(st, trace)
    requires !st.timerActive
    ensures Run(st, trace).stocks == st.stocks
    decreases |trace|
  {
    if |trace| > 0 {
      var next := Step(st, trace[0].ev, trace[0].now).state;
      StoppedPricesFrozen(next, trace[1..]);
    }
  }

  /** After a termination signal a tick neither sends nor changes anything. */
  lemma TickAfterShutdownIsInert(st: State, order: seq<SocketId>, tick: Event, now: int, later: int)
    requires Valid(st) && Enumerates(order, st.clients)
    requires tick.Tick? && Admissible(Step(st, Terminate(order), now).state, tick)
    ensures var down := Step(st, Terminate(order), now).state;
            Step(down, tick, later) == Effect(down, [])
  {
  }

  /** The connection counter agrees with the registry's size. */
  predicate Balanced(st: State) {
    st.metrics.connections == |st.clients|
  }

  /** Events that pair up with the registry: a connect brings a new socket,
      a close or error concerns a registered one. */
  predicate Paired(st: State, ev: Event) {
    match ev
    case Connected(sock, _) => sock !in st.clients
    case Closed(sock) => sock in st.clients
    case Errored(sock) => sock in st.clients
    case _ => true
  }

  /** The counter stays in step with the registry through every paired
      event, including a broadcast pass that drops failed sockets. */
  lemma StepKeepsBalance(st: State, ev: Event, now: int)
    requires Valid(st) && Admissible(st, ev) && Paired(st, ev)
    requires Balanced(st)
    ensures Balanced(Step(st, ev, now).state)
  {
    match ev
    case Connected(sock, _) =>
      assert |st.clients + {sock}| == |st.clients| + 1;
    case Closed(sock) =>
      assert |st.clients - {sock}| == |st.clients| - 1;
    case Errored(sock) =>
      assert |st.clients - {sock}| == |st.clients| - 1;
    case _ =>
  }

  /** An unpaired disconnect, such as the `close` that follows an `error`,
      or the `close` of a socket a pass already dropped, still decrements: the
      counter falls one below the registry's size. */
  lemma UnpairedDisconnectDrifts(st: State, sock: SocketId)
    requires Balanced(st) && sock !in st.clients
    ensures OnClose(st, sock).state.clients == st.clients
    ensures OnClose(st, sock).state.metrics.connections == |st.clients| - 1
    ensures !Balanced(OnClose(st, sock).state)
  {
    assert st.clients - {sock} == st.clients;
  }
}

=== FILE: metrics.dfy ===
/** The metrics tracker: a connection counter, a cumulative send counter and a
    bounded log of send times (milliseconds) with first-in-first-out eviction. */
module Metrics {
  import opened Rounding

  /** Capacity of the send-time log. */
  const MaxTimestamps: nat := 1000

  /** Window used when no window is given, in seconds. */
  const DefaultWindowSeconds: nat := 5

  datatype Tracker = Tracker(
    connections: int,
    messagesSent: nat,
    startTime: int,
    timestamps: seq<int>)

  datatype MetricsSnapshot = MetricsSnapshot(
    connections: int,
    totalMessagesSent: nat,
    messagesPerSecond: real,
    throughput: int,
    uptime: int)

  /** A tracker created at time `now`. */
  function NewTracker(now: int): (t: Tracker)
    ensures t.connections == 0 && t.messagesSent == 0 && t.timestamps == []
    ensures t.startTime == now
    ensures GetMetrics(t, now).uptime == 0 && GetMetrics(t, now).throughput == 0
    ensures GetMetrics(t, now).totalMessagesSent == 0
  {
    Tracker(0, 0, now, [])
  }

  /** The last `MaxTimestamps` entries of `s` (all of `s` when it is short enough). */
  function Retained(s: seq<int>): (r: seq<int>)
    ensures |r| <= MaxTimestamps
    ensures |r| == if |s| <= MaxTimestamps then |s| else MaxTimestamps
  {
    if |s| <= MaxTimestamps then s else s[|s| - MaxTimestamps..]
  }

  function AddConnection(t: Tracker): (r: Tracker)
    ensures r.connections == t.connections + 1
    ensures r.messagesSent == t.messagesSent && r.startTime == t.startTime
    ensures r.timestamps == t.timestamps
  {
    t.(connections := t.connections + 1)
  }

  /** No clamp: a removal without a matching addition drives the counter below zero. */
  function RemoveConnection(t: Tracker): (r: Tracker)
    ensures r.connections == t.connections - 1
    ensures r.messagesSent == t.messagesSent && r.startTime == t.startTime
    ensures r.timestamps == t.timestamps
  {
    t.(connections := t.connections - 1)
  }

  /** Counts one send at time `now`, evicting the oldest log entry once the
      log grows past its capacity. */
  function RecordMessage(t: Tracker, now: int): (r: Tracker)
    ensures r.messagesSent == t.messagesSent + 1
    ensures r.connections == t.connections && r.startTime == t.startTime
    ensures |t.timestamps| <= MaxTimestamps ==> |r.timestamps| <= MaxTimestamps
    ensures |r.timestamps| > 0 && r.timestamps[|r.timestamps| - 1] == now
    ensures |t.timestamps| <= MaxTimestamps ==> r.timestamps == Retained(t.timestamps + [now])
  {
    var log := t.timestamps + [now];
    var log' := if |log| > MaxTimestamps then log[1..] else log;
    t.(messagesSent := t.messagesSent + 1, timestamps := log')
  }

  /** `RecordMessage` applied once per entry of `times`, in order. */
  function RecordAll(t: Tracker, times: seq<int>): Tracker
    decreases |times|
  {
    if |times| == 0 then t
    else RecordMessage(RecordAll(t, times[..|times| - 1]), times[|times| - 1])
  }

  /** Retaining the tail of a retained prefix is retaining the tail of the whole. */
  lemma RetainedAppend(a: seq<int>, x: int)
    ensures Retained(Retained(a) + [x]) == Retained(a + [x])
  {
    var l := Retained(a) + [x];
    var r := Retained(l);
    var r' := Retained(a + [x]);
    assert |r| == |r'|;
    forall i | 0 <= i < |r|
      ensures r[i] == r'[i]
    {
      if i == |r| - 1 {
      } else {
        assert r[i] == l[|l| - |r| + i];
        assert r'[i] == (a + [x])[|a| + 1 - |r'| + i];
      }
    }
  }

  /** First-in-first-out eviction: after any run of sends the log holds
      exactly the most recent `MaxTimestamps` send times of the old log
      followed by the new ones, in recording order. */
  lemma {:induction false} RecordAllRetainsNewest(t: Tracker, times: seq<int>)
    requires |t.timestamps| <= MaxTimestamps
    ensures RecordAll(t, times).timestamps == Retained(t.timestamps + times)
    decreases |times|
  {
    if |times| == 0 {
      assert t.timestamps + times == t.timestamps;
    } else {
      var k := |times| - 1;
      var front, x := times[..k], times[k];
      var mid := RecordAll(t, front);
      RecordAllRetainsNewest(t, front);
      RecordOneMore(t.timestamps + front, mid, x);
      assert t.timestamps + times == (t.timestamps + front) + [x] by {
        assert times == front + [x];
      }
    }
  }

  /** A run of sends adds its length to the cumulative counter and touches
      neither the connection counter nor the start time. */
  lemma {:induction false} RecordAllCounts(t: Tracker, times: seq<int>)
    ensures RecordAll(t, times).messagesSent == t.messagesSent + |times|
    ensures RecordAll(t, times).connections == t.connections
    ensures RecordAll(t, times).startTime == t.startTime
    decreases |times|
  {
    if |times| > 0 {
      RecordAllCounts(t, times[..|times| - 1]);
    }
  }

  /** One more send on top of a log that retains the tail of `log`. */
  lemma RecordOneMore(log: seq<int>, mid: Tracker, x: int)
    requires mid.timestamps == Retained(log)
    ensures RecordMessage(mid, x).timestamps == Retained(log + [x])
  {
    RetainedAppend(log, x);
  }

  /** From an empty log, the log is the last `min(n, MaxTimestamps)` of the
      `n` recorded times. */
  lemma LogOfFreshTracker(now: int, times: seq<int>)
    ensures RecordAll(NewTracker(now), times).timestamps == Retained(times)
  {
    RecordAllRetainsNewest(NewTracker(now), times);
    assert [] + times == times;
  }

  /** The log entries at or after `cutoff`, in log order (the source's `filter`). */
  function Since(log: seq<int>, cutoff: int): (r: seq<int>)
    ensures |r| <= |log|
    ensures forall x :: x in r ==> x in log && x >= cutoff
    ensures forall i :: 0 <= i < |log| && log[i] >= cutoff ==> log[i] in r
    ensures forall x :: multiset(r)[x] == if x >= cutoff then multiset(log)[x] else 0
    decreases |log|
  {
    if |log| == 0 then []
    else
      var k := |log| - 1;
      var rest := Since(log[..k], cutoff);
      assert forall i :: 0 <= i < k ==> log[..k][i] == log[i];
      assert log == log[..k] + [log[k]];
      assert multiset(log) == multiset(log[..k]) + multiset{log[k]};
      if log[k] >= cutoff then
        assert multiset(rest + [log[k]]) == multiset(rest) + multiset{log[k]};
        rest + [log[k]]
      else rest
  }

  /** Sends per second over the trailing `windowSeconds` seconds: the number of
      logged sends at or after `now - 1000 * windowSeconds`, divided by the window. */
  function MessagesPerSecond(t: Tracker, now: int, windowSeconds: nat): (r: real)
    requires windowSeconds > 0
    ensures r >= 0.0
    ensures r == |Since(t.timestamps, now - windowSeconds * 1000)| as real / windowSeconds as real
    ensures t.timestamps == [] ==> r == 0.0
    ensures |t.timestamps| <= MaxTimestamps ==> r <= MaxTimestamps as real / windowSeconds as real
  {
    var count := |Since(t.timestamps, now - windowSeconds * 1000)| as real;
    var w := windowSeconds as real;
    var bound := if |t.timestamps| <= MaxTimestamps then MaxTimestamps as real else |t.timestamps| as real;
    QuotientBounds(count, bound, w);
    count / w
  }

  lemma QuotientBounds(a: real, b: real, w: real)
    requires 0.0 <= a <= b && w > 0.0
    ensures 0.0 <= a / w <= b / w
    ensures (a / w) * w == a
  {
  }

  /** When every entry is recent the filter keeps the whole log. */
  lemma {:induction false} SinceAllRecent(log: seq<int>, cutoff: int)
    requires forall i :: 0 <= i < |log| ==> log[i] >= cutoff
    ensures Since(log, cutoff) == log
    decreases |log|
  {
    if |log| > 0 {
      var k := |log| - 1;
      SinceAllRecent(log[..k], cutoff);
      assert log == log[..k] + [log[k]];
    }
  }

  /** When every entry is stale the filter keeps nothing. */
  lemma SinceAllStale(log: seq<int>, cutoff: int)
    requires forall i :: 0 <= i < |log| ==> log[i] < cutoff
    ensures Since(log, cutoff) == []
  {
  }

  /** K sends logged inside the window give a rate of exactly K per window length. */
  lemma RateOfFreshSends(t: Tracker, now: int, windowSeconds: nat)
    requires windowSeconds > 0
    requires forall i :: 0 <= i < |t.timestamps| ==> t.timestamps[i] >= now - windowSeconds * 1000
    ensures MessagesPerSecond(t, now, windowSeconds) == |t.timestamps| as real / windowSeconds as real
  {
    SinceAllRecent(t.timestamps, now - windowSeconds * 1000);
  }

  /** The snapshot reported to clients and to the HTTP route. */
  function GetMetrics(t: Tracker, now: int): (m: MetricsSnapshot)
    ensures m.connections == t.connections
    ensures m.totalMessagesSent == t.messagesSent
    ensures m.uptime * 1000 <= now - t.startTime < (m.uptime + 1) * 1000
    ensures m.throughput as real <= MessagesPerSecond(t, now, DefaultWindowSeconds) < m.throughput as real + 1.0
    ensures m.throughput >= 0
    ensures |t.timestamps| <= MaxTimestamps ==> m.throughput <= MaxTimestamps / DefaultWindowSeconds
    ensures IsCents(m.messagesPerSecond)
    ensures -0.005 <= m.messagesPerSecond - MessagesPerSecond(t, now, DefaultWindowSeconds) <= 0.005
  {
    var uptime := (((now - t.startTime) as real) / 1000.0).Floor;
    var rate := MessagesPerSecond(t, now, DefaultWindowSeconds);
    MetricsSnapshot(t.connections, t.messagesSent, Round2(rate), rate.Floor, uptime)
  }

  /** Clears the cumulative counters and restarts the uptime clock; the
      connection counter reflects live sockets and survives. */
  function Reset(t: Tracker, now: int): (r: Tracker)
    ensures r.connections == t.connections
    ensures r.messagesSent == 0 && r.timestamps == [] && r.startTime == now
  {
    Tracker(t.connections, 0, now, [])
  }

  /** Right after a reset the tracker reports no traffic and no uptime. */
  lemma ResetReportsNothing(t: Tracker, now: int)
    ensures GetMetrics(Reset(t, now), now).totalMessagesSent == 0
    ensures GetMetrics(Reset(t, now), now).throughput == 0
    ensures GetMetrics(Reset(t, now), now).messagesPerSecond == 0.0
    ensures GetMetrics(Reset(t, now), now).uptime == 0
    ensures GetMetrics(Reset(t, now), now).connections == t.connections
  {
    Round2OfCents(0.0);
  }

  /** Opening and then closing a connection leaves the tracker as it was. */
  lemma AddThenRemove(t: Tracker)
    ensures RemoveConnection(AddConnection(t)) == t
    ensures AddConnection(RemoveConnection(t)) == t
  {
  }
}

=== FILE: provider.dfy ===
/** Which completion provider the analysis route talks to, chosen from three
    optional API keys in the environment. */
module Provider {
  import opened Wrappers

  datatype Provider = Groq | Xai | OpenAI

  /** The three environment variables; `None` is an unset variable. */
  datatype Env = Env(groqKey: Option<string>, xaiKey: Option<string>, openaiKey: Option<string>)

  /** The client the server builds at start-up: key and endpoint. */
  datatype AiClient = AiClient(apiKey: string, baseUrl: string)

  /** JavaScript truthiness of an environment variable: set and non-empty. */
  predicate Truthy(v: Option<string>) {
    v.Some? && v.value != ""
  }

  /** `a || b`: the first operand if it is truthy, else the second. */
  function JsOr(a: Option<string>, b: Option<string>): Option<string> {
    if Truthy(a) then a else b
  }

  function KeyOf(env: Env, p: Provider): Option<string> {
    match p
    case Groq => env.groqKey
    case Xai => env.xaiKey
    case OpenAI => env.openaiKey
  }

  function BaseUrlOf(p: Provider): string {
    match p
    case Groq => "https://api.groq.com/openai/v1"
    case Xai => "https://api.x.ai/v1"
    case OpenAI => "https://api.openai.com/v1"
  }

  function ModelOf(p: Provider): string {
    match p
    case Groq => "llama-3.3-70b-versatile"
    case Xai => "grok-beta"
    case OpenAI => "gpt-4o-mini"
  }

  /** The key: GROQ, else XAI, else OPENAI, by `||`. */
  function ApiKey(env: Env): Option<string> {
    JsOr(JsOr(env.groqKey, env.xaiKey), env.openaiKey)
  }

  /** The endpoint, chosen by its own if-chain. */
  function BaseUrl(env: Env): string {
    if Truthy(env.groqKey) then "https://api.groq.com/openai/v1"
    else if Truthy(env.xaiKey) then "https://api.x.ai/v1"
    else "https://api.openai.com/v1"
  }

  /** The model, chosen per request by a third if-chain in the analysis route. */
  function Model(env: Env): string {
    if Truthy(env.groqKey) then "llama-3.3-70b-versatile"
    else if Truthy(env.xaiKey) then "grok-beta"
    else "gpt-4o-mini"
  }

  /** The client, built only when the chosen key is truthy. */
  function MakeClient(env: Env): Option<AiClient> {
    var key := ApiKey(env);
    if Truthy(key) then Some(AiClient(key.value, BaseUrl(env))) else None
  }

  /** The provider that priority picks: the first with a truthy key. */
  function Chosen(env: Env): (p: Option<Provider>)
    ensures p.Some? <==> Truthy(env.groqKey) || Truthy(env.xaiKey) || Truthy(env.openaiKey)
    ensures p.Some? ==> Truthy(KeyOf(env, p.value))
    ensures p == Some(Xai) ==> !Truthy(env.groqKey)
    ensures p == Some(OpenAI) ==> !Truthy(env.groqKey) && !Truthy(env.xaiKey)
  {
    if Truthy(env.groqKey) then Some(Groq)
    else if Truthy(env.xaiKey) then Some(Xai)
    else if Truthy(env.openaiKey) then Some(OpenAI)
    else None
  }

  /** The key and the endpoint are chosen separately but agree: there is a
      client exactly when some key is set, and its key and endpoint belong to
      the provider that priority picks. */
  lemma ClientMatchesProvider(env: Env)
    ensures MakeClient(env).Some? <==> Chosen(env).Some?
    ensures Chosen(env).Some? ==>
              MakeClient(env) == Some(AiClient(KeyOf(env, Chosen(env).value).value, BaseUrlOf(Chosen(env).value)))
    ensures Chosen(env).Some? ==>
              ApiKey(env) == KeyOf(env, Chosen(env).value) && BaseUrl(env) == BaseUrlOf(Chosen(env).value)
    ensures Chosen(env).None? ==> !Truthy(ApiKey(env)) && BaseUrl(env) == BaseUrlOf(OpenAI)
  {
  }

  /** The model chosen in the analysis route belongs to the same provider. */
  lemma ModelMatchesProvider(env: Env)
    ensures Chosen(env).Some? ==> Model(env) == ModelOf(Chosen(env).value)
  {
  }
}

=== FILE: rounding.dfy ===
/** Two-decimal rounding, the model of `parseFloat(x.toFixed(2))` on exact reals. */
module Rounding {

  /** Amounts that are a whole number of hundredths. */
  predicate IsCents(x: real) {
    (x * 100.0).Floor as real == x * 100.0
  }

  /** Half-up rounding of a magnitude to hundredths. */
  function RoundMagnitude(x: real): (r: real)
    ensures IsCents(r)
    ensures x - 0.005 < r <= x + 0.005
  {
    var k := (x * 100.0 + 0.5).Floor;
    assert k as real <= x * 100.0 + 0.5 < k as real + 1.0;
    assert (k as real / 100.0) * 100.0 == k as real;
    assert ((k as real / 100.0) * 100.0).Floor == k;
    k as real / 100.0
  }

  /** `toFixed(2)` rounds the magnitude and re-attaches the sign, so ties
      are resolved away from zero on both sides. */
  function Round2(x: real): (r: real)
    ensures IsCents(r)
    ensures x - 0.005 <= r <= x + 0.005
    ensures x >= 0.0 ==> x - 0.005 < r
    ensures x < 0.0 ==> r < x + 0.005
    ensures x >= 0.0 ==> r >= 0.0
    ensures x <= 0.0 ==> r <= 0.0
  {
    if x < 0.0 then
      var m := RoundMagnitude(-x);
      CentsNegate(m);
      -m
    else
      RoundMagnitude(x)
  }

  lemma CentsNegate(x: real)
    requires IsCents(x)
    ensures IsCents(-x)
  {
    var n := (x * 100.0).Floor;
    assert -x * 100.0 == (-n) as real;
  }

  /** Rounding never pushes an amount of at least one cent below one cent. */
  lemma Round2KeepsCent(x: real)
    requires x >= 0.01
    ensures Round2(x) >= 0.01
  {
    var k := (x * 100.0 + 0.5).Floor;
    assert k as real > x * 100.0 - 0.5 >= 0.5;
  }

  /** An amount that is already a whole number of hundredths is left as it is. */
  lemma Round2OfCents(x: real)
    requires IsCents(x)
    ensures Round2(x) == x
  {
    var n := (x * 100.0).Floor;
    if x < 0.0 {
      var m := (-x * 100.0 + 0.5).Floor;
      assert -x * 100.0 == -n as real;
      assert m == -n;
    } else {
      var m := (x * 100.0 + 0.5).Floor;
      assert m == n;
    }
  }

  /** Rounding is symmetric about zero. */
  lemma Round2Odd(x: real)
    ensures Round2(-x) == -Round2(x)
  {
    if x == 0.0 {
      assert RoundMagnitude(0.0) == 0.0;
    }
  }

  /** Rounding twice is rounding once. */
  lemma Round2Idempotent(x: real)
    ensures Round2(Round2(x)) == Round2(x)
  {
    Round2OfCents(Round2(x));
  }
}

=== FILE: server.dfy ===
/** The broadcast server: the client registry, the per-socket handlers
    (accept, message, close, error), the periodic broadcast pass and the
    shutdown loop, as step functions over an explicit state. Clock readings,
    random draws, socket ready-states and send failures arrive as parameters. */
module Server {
  import opened Metrics
  import opened Simulator

  /** A socket, by identity. */
  type SocketId = nat

  /** What happens to one socket in one broadcast pass: it is not OPEN (and is
      skipped), its send goes through, or its send throws. */
  datatype SendOutcome = NotOpen | Delivered | Throws

  /** An inbound frame after parsing: not JSON, a latency probe, or anything else. */
  datatype Inbound = Malformed | Ping(clientTime: int) | Other

  datatype Message =
    | Initial(stocks: seq<Stock>, clientId: string, serverTime: int)
    | Update(stocks: seq<Stock>, metrics: MetricsSnapshot, serverTime: int)
    | Pong(clientTime: int, serverTime: int)

  /** What the server does to a socket: hand it a frame, or ask it to close. */
  datatype Action = Send(to: SocketId, msg: Message) | CloseSocket(to: SocketId)

  /** `timerActive` is the broadcast interval: set at start, cleared at shutdown. */
  datatype State = State(
    clients: set<SocketId>,
    metrics: Tracker,
    stocks: seq<Stock>,
    timerActive: bool)

  /** The state after a step and the actions the step performed, in order. */
  datatype Effect = Effect(state: State, actions: seq<Action>)

  /** The state the process starts in at time `now`. */
  function Start(now: int): (st: State)
    ensures Valid(st)
    ensures st.clients == {} && st.metrics.connections == 0 && st.timerActive
    ensures st.metrics.startTime == now
    ensures st.stocks == InitialStocks() && st.metrics == NewTracker(now)
  {
    InitialStocksValid();
    State({}, NewTracker(now), InitialStocks(), true)
  }

  /** What every reachable state satisfies. */
  predicate Valid(st: State) {
    ValidTable(st.stocks) && |st.metrics.timestamps| <= MaxTimestamps
  }

  /** The number of entries of `s` equal to `x`. */
  function CountOf<T(==)>(s: seq<T>, x: T): (n: nat)
    ensures n <= |s|
    decreases |s|
  {
    if |s| == 0 then 0
    else CountOf(s[..|s| - 1], x) + (if s[|s| - 1] == x then 1 else 0)
  }

  /** No socket appears twice. */
  predicate Distinct(order: seq<SocketId>) {
    forall i, j :: 0 <= i < j < |order| ==> order[i] != order[j]
  }

  /** `order` lists the members of `clients`, each exactly once: the
      iteration order of the set at the start of a pass. */
  predicate Enumerates(order: seq<SocketId>, clients: set<SocketId>) {
    && Distinct(order)
    && (forall c :: c in clients ==> c in order)
    && (forall i :: 0 <= i < |order| ==> order[i] in clients)
  }

  /* ---------------------------------------------------------------- handlers */

  /** A new connection: register it, count it, and send it the current prices. */
  function Accept(st: State, sock: SocketId, clientId: string, now: int): (e: Effect)
    ensures e.state.clients == st.clients + {sock}
    ensures e.state.metrics == AddConnection(st.metrics)
    ensures e.state.stocks == st.stocks && e.state.timerActive == st.timerActive
    ensures |e.actions| == 1 && e.actions[0].to == sock
    ensures e.actions[0] == Send(sock, Initial(GetCurrentPrices(st.stocks, now), clientId, now))
  {
    var st' := st.(clients := st.clients + {sock}, metrics := AddConnection(st.metrics));
    Effect(st', [Send(sock, Initial(GetCurrentPrices(st.stocks, now), clientId, now))])
  }

  /** An inbound frame: a ping is answered with a pong echoing its time;
      anything else, parsable or not, is dropped. No frame changes the state. */
  function OnMessage(st: State, sock: SocketId, inbound: Inbound, now: int): (e: Effect)
    ensures e.state == st
    ensures inbound.Ping? ==> e.actions == [Send(sock, Pong(inbound.clientTime, now))]
    ensures !inbound.Ping? ==> e.actions == []
  {
    match inbound
    case Ping(clientTime) => Effect(st, [Send(sock, Pong(clientTime, now))])
    case _ => Effect(st, [])
  }

  /** The body shared by the `close` and `error` handlers: forget the socket
      (a no-op if it is already gone) and decrement the counter (always). */
  function Disconnect(st: State, sock: SocketId): (e: Effect)
    ensures sock !in e.state.clients
    ensures e.state.clients == st.clients - {sock}
    ensures e.state.metrics.connections == st.metrics.connections - 1
    ensures e.state.metrics.messagesSent == st.metrics.messagesSent
    ensures e.state.metrics.timestamps == st.metrics.timestamps
    ensures e.state.metrics.startTime == st.metrics.startTime
    ensures e.state.metrics == RemoveConnection(st.metrics)
    ensures e.state.stocks == st.stocks && e.state.timerActive == st.timerActive
    ensures e.actions == []
  {
    Effect(st.(clients := st.clients - {sock}, metrics := RemoveConnection(st.metrics)), [])
  }

  function OnClose(st: State, sock: SocketId): (e: Effect) {
    Disconnect(st, sock)
  }

  function OnError(st: State, sock: SocketId): (e: Effect) {
    Disconnect(st, sock)
  }

  /** Set removal is idempotent, the counter is not: a second `close` or
      `error` for the same socket leaves the registry alone but decrements
      the counter again. */
  lemma DisconnectTwice(st: State, sock: SocketId)
    ensures OnError(OnClose(st, sock).state, sock).state.clients == OnClose(st, sock).state.clients
    ensures OnClose(OnClose(st, sock).state, sock).state.clients == OnClose(st, sock).state.clients
    ensures OnError(OnClose(st, sock).state, sock).state.metrics.connections == st.metrics.connections - 2
  {
  }

  /* ---------------------------------------------------------- broadcast pass */

  /** The running state of one fan-out: the registry, the tracker, the frames
      handed out so far and the success tally. */
  datatype Pass = Pass(clients: set<SocketId>, metrics: Tracker, sent: seq<Action>, successCount: nat)

  /** One socket of the fan-out. */
  function Visit(p: Pass, sock: SocketId, outcome: SendOutcome, msg: Message, now: int): Pass {
    match outcome
    case NotOpen => p
    case Delivered =>
      Pass(p.clients, RecordMessage(p.metrics, now), p.sent + [Send(sock, msg)], p.successCount + 1)
    case Throws =>
      Pass(p.clients - {sock}, RemoveConnection(p.metrics), p.sent, p.successCount)
  }

  /** The fan-out over a snapshot of the registry, visiting sockets in order. */
  function FanOut(p0: Pass, order: seq<SocketId>, outcomes: seq<SendOutcome>, msg: Message, now: int): Pass
    requires |outcomes| == |order|
    decreases |order|
  {
    if |order| == 0 then p0
    else
      var k := |order| - 1;
      Visit(FanOut(p0, order[..k], outcomes[..k], msg, now), order[k], outcomes[k], msg, now)
  }

  /** Success accounting: every delivered send is counted once in the tally,
      in `messagesSent` and in the send log; every throwing send costs one
      connection; nothing else moves the counters. */
  lemma {:induction false} FanOutCounters(p0: Pass, order: seq<SocketId>, outcomes: seq<SendOutcome>, msg: Message, now: int)
    requires |outcomes| == |order|
    ensures FanOut(p0, order, outcomes, msg, now).successCount == p0.successCount + CountOf(outcomes, Delivered)
    ensures |FanOut(p0, order, outcomes, msg, now).sent| == |p0.sent| + CountOf(outcomes, Delivered)
    ensures FanOut(p0, order, outcomes, msg, now).metrics.messagesSent == p0.metrics.messagesSent + CountOf(outcomes, Delivered)
    ensures FanOut(p0, order, outcomes, msg, now).metrics.connections == p0.metrics.connections - CountOf(outcomes, Throws)
    ensures FanOut(p0, order, outcomes, msg, now).metrics.startTime == p0.metrics.startTime
    decreases |order|
  {
    if |order| > 0 {
      var k := |order| - 1;
      FanOutCounters(p0, order[..k], outcomes[..k], msg, now);
    }
  }

  /** The send log stays within its capacity through a fan-out. */
  lemma {:induction false} FanOutLogBound(p0: Pass, order: seq<SocketId>, outcomes: seq<SendOutcome>, msg: Message, now: int)
    requires |outcomes| == |order|
    ensures |p0.metrics.timestamps| <= MaxTimestamps ==>
              |FanOut(p0, order, outcomes, msg, now).metrics.timestamps| <= MaxTimestamps
    decreases |order|
  {
    if |order| > 0 {
      var k := |order| - 1;
      FanOutLogBound(p0, order[..k], outcomes[..k], msg, now);
    }
  }

  /** The frames of a fan-out: each is the one shared message, each delivered
      socket receives it, and only delivered sockets do. */
  lemma {:induction false} FanOutSends(p0: Pass, order: seq<SocketId>, outcomes: seq<SendOutcome>, msg: Message, now: int)
    requires |outcomes| == |order| && p0.sent == []
    ensures forall j :: 0 <= j < |FanOut(p0, order, outcomes, msg, now).sent| ==>
              FanOut(p0, order, outcomes, msg, now).sent[j].Send? && FanOut(p0, order, outcomes, msg, now).sent[j].msg == msg
    ensures forall i :: 0 <= i < |order| && outcomes[i] == Delivered ==>
              Send(order[i], msg) in FanOut(p0, order, outcomes, msg, now).sent
    ensures forall a :: a in FanOut(p0, order, outcomes, msg, now).sent ==>
              exists i :: 0 <= i < |order| && outcomes[i] == Delivered && a == Send(order[i], msg)
    decreases |order|
  {
    if |order| > 0 {
      var k := |order| - 1;
      FanOutSends(p0, order[..k], outcomes[..k], msg, now);
      var mid := FanOut(p0, order[..k], outcomes[..k], msg, now);
      var r := FanOut(p0, order, outcomes, msg, now);
      forall a | a in r.sent
        ensures exists i :: 0 <= i < |order| && outcomes[i] == Delivered && a == Send(order[i], msg)
      {
        if a in mid.sent {
          var i :| 0 <= i < k && outcomes[..k][i] == Delivered && a == Send(order[..k][i], msg);
          assert outcomes[i] == Delivered && a == Send(order[i], msg);
        } else {
          assert a == Send(order[k], msg) && outcomes[k] == Delivered;
        }
      }
      forall i | 0 <= i < |order| && outcomes[i] == Delivered
        ensures Send(order[i], msg) in r.sent
      {
        if i < k {
          assert outcomes[..k][i] == Delivered && order[..k][i] == order[i];
        }
      }
    }
  }

  /** Registry after a fan-out: a visited socket stays exactly when its send
      did not throw; sockets outside the snapshot are untouched. */
  lemma {:induction false} FanOutMembership(p0: Pass, order: seq<SocketId>, outcomes: seq<SendOutcome>, msg: Message, now: int)
    requires |outcomes| == |order| && Distinct(order)
    ensures forall i :: 0 <= i < |order| ==>
              (order[i] in FanOut(p0, order, outcomes, msg, now).clients <==> order[i] in p0.clients && outcomes[i] != Throws)
    ensures forall c :: c !in order ==> (c in FanOut(p0, order, outcomes, msg, now).clients <==> c in p0.clients)
    ensures FanOut(p0, order, outcomes, msg, now).clients <= p0.clients
    decreases |order|
  {
    if |order| > 0 {
      var k := |order| - 1;
      assert Distinct(order[..k]);
      FanOutMembership(p0, order[..k], outcomes[..k], msg, now);
      var mid := FanOut(p0, order[..k], outcomes[..k], msg, now);
      var r := FanOut(p0, order, outcomes, msg, now);
      forall i | 0 <= i < |order|
        ensures order[i] in r.clients <==> order[i] in p0.clients && outcomes[i] != Throws
      {
        if i < k {
          assert order[..k][i] == order[i] && outcomes[..k][i] == outcomes[i];
        } else {
          assert order[k] !in order[..k];
        }
      }
      forall c | c !in order
        ensures c in r.clients <==> c in p0.clients
      {
        assert c !in order[..k];
      }
    }
  }

  /** Over a snapshot of registry members, the registry shrinks by exactly the
      number of throwing sends. */
  lemma {:induction false} FanOutSize(p0: Pass, order: seq<SocketId>, outcomes: seq<SendOutcome>, msg: Message, now: int)
    requires |outcomes| == |order| && Distinct(order)
    requires forall i :: 0 <= i < |order| ==> order[i] in p0.clients
    ensures |FanOut(p0, order, outcomes, msg, now).clients| == |p0.clients| - CountOf(outcomes, Throws)
    decreases |order|
  {
    if |order| > 0 {
      var k := |order| - 1;
      assert Distinct(order[..k]);
      FanOutSize(p0, order[..k], outcomes[..k], msg, now);
      var mid := FanOut(p0, order[..k], outcomes[..k], msg, now);
      FanOutMembership(p0, order[..k], outcomes[..k], msg, now);
      assert order[k] !in order[..k];
      assert order[k] in mid.clients;
      if outcomes[k] == Throws {
        assert |mid.clients - {order[k]}| == |mid.clients| - 1;
      }
    }
  }

  /** The `update` frame of a pass: the freshly advanced prices and the
      metrics as they stood before any send of the pass. */
  function Frame(st: State, draws: seq<real>, now: int): (m: Message)
    requires |draws| == |st.stocks| && ValidDraws(draws)
    requires forall i :: 0 <= i < |st.stocks| ==> st.stocks[i].price > 0.0
    ensures m.Update? && m.serverTime == now
    ensures |m.stocks| == |st.stocks| && ValidTable(m.stocks)
    ensures forall i :: 0 <= i < |m.stocks| ==> m.stocks[i].symbol == st.stocks[i].symbol
    ensures m.metrics.connections == st.metrics.connections
    ensures m.metrics.totalMessagesSent == st.metrics.messagesSent
    ensures m.stocks == UpdatePrices(st.stocks, draws, now)
    ensures m.metrics == GetMetrics(st.metrics, now)
  {
    Update(UpdatePrices(st.stocks, draws, now), GetMetrics(st.metrics, now), now)
  }

  /** The set of entries of a sequence. */
  function Members(order: seq<SocketId>): set<SocketId> {
    set c | c in order
  }

  /** A sequence without repeats has as many members as entries, so a
      snapshot that enumerates the registry has the registry's size. */
  lemma {:induction false} DistinctMembers(order: seq<SocketId>)
    requires Distinct(order)
    ensures |Members(order)| == |order|
    decreases |order|
  {
    if |order| > 0 {
      var k := |order| - 1;
      assert Distinct(order[..k]);
      DistinctMembers(order[..k]);
      assert order[k] !in order[..k];
      assert Members(order) == Members(order[..k]) + {order[k]} by {
        assert order == order[..k] + [order[k]];
      }
    }
  }

  lemma EnumerationSize(order: seq<SocketId>, clients: set<SocketId>)
    requires Enumerates(order, clients)
    ensures |order| == |clients|
  {
    assert Members(order) == clients;
    DistinctMembers(order);
  }

  /** One broadcast pass. With no clients it does nothing at all; otherwise it
      advances the prices once, builds one `update` frame carrying the metrics
      as they stood before the pass, and fans it out. */
  function Broadcast(st: State, order: seq<SocketId>, outcomes: seq<SendOutcome>, draws: seq<real>, now: int): (e: Effect)
    requires Enumerates(order, st.clients) && |outcomes| == |order|
    requires |draws| == |st.stocks| && ValidDraws(draws)
    requires forall i :: 0 <= i < |st.stocks| ==> st.stocks[i].price > 0.0
    ensures st.clients == {} ==> e == Effect(st, [])
    ensures st.clients != {} ==> e.state.stocks == UpdatePrices(st.stocks, draws, now)
    ensures |e.actions| == CountOf(outcomes, Delivered)
    ensures e.state.metrics.messagesSent == st.metrics.messagesSent + CountOf(outcomes, Delivered)
    ensures e.state.metrics.connections == st.metrics.connections - CountOf(outcomes, Throws)
    ensures e.state.metrics.startTime == st.metrics.startTime
    ensures |st.metrics.timestamps| <= MaxTimestamps ==> |e.state.metrics.timestamps| <= MaxTimestamps
    ensures forall i :: 0 <= i < |order| ==> (order[i] in e.state.clients <==> outcomes[i] != Throws)
    ensures e.state.clients <= st.clients
    ensures |e.state.clients| == |st.clients| - CountOf(outcomes, Throws)
    ensures forall j :: 0 <= j < |e.actions| ==> e.actions[j].Send? && e.actions[j].msg == Frame(st, draws, now)
    ensures forall i :: 0 <= i < |order| && outcomes[i] == Delivered ==> Send(order[i], Frame(st, draws, now)) in e.actions
    ensures forall a :: a in e.actions ==> exists i :: 0 <= i < |order| && outcomes[i] == Delivered && a == Send(order[i], Frame(st, draws, now))
    ensures st.clients != {} ==> forall j :: 0 <= j < |e.actions| ==>
              e.actions[j].Send? && e.actions[j].msg.Update? && e.actions[j].msg.stocks == e.state.stocks
    ensures e.state.timerActive == st.timerActive
  {
    if |st.clients| == 0 then
      EnumerationSize(order, st.clients);
      Effect(st, [])
    else
      var stocks := UpdatePrices(st.stocks, draws, now);
      var msg := Frame(st, draws, now);
      var p0 := Pass(st.clients, st.metrics, [], 0);
      FanOutCounters(p0, order, outcomes, msg, now);
      FanOutSends(p0, order, outcomes, msg, now);
      FanOutMembership(p0, order, outcomes, msg, now);
      FanOutSize(p0, order, outcomes, msg, now);
      FanOutLogBound(p0, order, outcomes, msg, now);
      var p := FanOut(p0, order, outcomes, msg, now);
      Effect(State(p.clients, p.metrics, stocks, st.timerActive), p.sent)
  }

  /** The pass as the source runs it: a loop over the snapshot that keeps a
      success tally. */
  method BroadcastPass(st: State, order: seq<SocketId>, outcomes: seq<SendOutcome>, draws: seq<real>, now: int)
    returns (e: Effect, successCount: nat)
    requires Enumerates(order, st.clients) && |outcomes| == |order|
    requires |draws| == |st.stocks| && ValidDraws(draws)
    requires forall i :: 0 <= i < |st.stocks| ==> st.stocks[i].price > 0.0
    ensures e == Broadcast(st, order, outcomes, draws, now)
    ensures successCount == CountOf(outcomes, Delivered)
  {
    if |st.clients| == 0 {
      EnumerationSize(order, st.clients);
      return Effect(st, []), 0;
    }
    var stocks := UpdatePrices(st.stocks, draws, now);
    var msg := Update(stocks, GetMetrics(st.metrics, now), now);
    ghost var p0 := Pass(st.clients, st.metrics, [], 0);
    var clients, tracker, sent := st.clients, st.metrics, [];
    successCount := 0;
    var i := 0;
    while i < |order|
      invariant 0 <= i <= |order|
      invariant Pass(clients, tracker, sent, successCount) == FanOut(p0, order[..i], outcomes[..i], msg, now)
    {
      match outcomes[i] {
        case NotOpen =>
        case Delivered =>
          sent := sent + [Send(order[i], msg)];
          tracker := RecordMessage(tracker, now);
          successCount := successCount + 1;
        case Throws =>
          clients := clients - {order[i]};
          tracker := RemoveConnection(tracker);
      }
      assert order[..i + 1][..i] == order[..i];
      assert outcomes[..i + 1][..i] == outcomes[..i];
      i := i + 1;
    }
    assert order[..i] == order && outcomes[..i] == outcomes;
    FanOutCounters(p0, order, outcomes, msg, now);
    e := Effect(State(clients, tracker, stocks, st.timerActive), sent);
  }

  /* ---------------------------------------------------------------- shutdown */

  /** One close request per registered socket, in iteration order. */
  function CloseRequests(order: seq<SocketId>): seq<Action> {
    seq(|order|, i requires 0 <= i < |order| => CloseSocket(order[i]))
  }

  /** The shutdown loop: ask every socket to close; a close that throws is
      logged (counted here) and the loop carries on. */
  method CloseAll(order: seq<SocketId>, closeThrows: seq<bool>) returns (actions: seq<Action>, failures: nat)
    requires |closeThrows| == |order|
    ensures actions == CloseRequests(order)
    ensures failures == CountOf(closeThrows, true)
  {
    actions, failures := [], 0;
    var i := 0;
    while i < |order|
      invariant 0 <= i <= |order|
      invariant |actions| == i
      invariant forall j :: 0 <= j < i ==> actions[j] == CloseSocket(order[j])
      invariant failures == CountOf(closeThrows[..i], true)
    {
      actions := actions + [CloseSocket(order[i])];
      if closeThrows[i] {
        failures := failures + 1;
      }
      assert closeThrows[..i + 1][..i] == closeThrows[..i];
      i := i + 1;
    }
    assert closeThrows[..i] == closeThrows;
    assert actions == CloseRequests(order);
  }

  /** Graceful shutdown: stop the interval and ask every client to close. The
      registry and counters change only as the resulting `close` events arrive. */
  function Shutdown(st: State, order: seq<SocketId>): (e: Effect)
    requires Enumerates(order, st.clients)
    ensures !e.state.timerActive
    ensures e.state.clients == st.clients && e.state.metrics == st.metrics && e.state.stocks == st.stocks
    ensures forall c :: c in st.clients ==> CloseSocket(c) in e.actions
    ensures forall a :: a in e.actions ==> a.CloseSocket? && a.to in st.clients
    ensures |e.actions| == |st.clients|
    ensures e.actions == CloseRequests(order)
  {
    var acts := CloseRequests(order);
    EnumerationSize(order, st.clients);
    assert forall c :: c in st.clients ==> CloseSocket(c) in acts by {
      forall c | c in st.clients
        ensures CloseSocket(c) in acts
      {
        var i :| 0 <= i < |order| && order[i] == c;
        assert acts[i] == CloseSocket(c);
      }
    }
    Effect(st.(timerActive := false), acts)
  }
}

=== FILE: simulator.dfy ===
/** The price simulator: a fixed table of instruments whose prices follow a
    bounded random walk, clamped at one cent and stored rounded to cents. */
module Simulator {
  import opened Wrappers
  import opened Rounding

  /** The clamp floor of every new price. */
  const MinPrice: real := 0.01

  /** One table entry. `change`, `changePercent` and `timestamp` are absent
      until the first update (or, for `timestamp`, the first read). */
  datatype Stock = Stock(
    symbol: string,
    price: real,
    volatility: real,
    change: Option<real>,
    changePercent: Option<real>,
    timestamp: Option<int>)

  /** The unrounded outcome of one random-walk step of one instrument. */
  datatype Move = Move(change: real, newPrice: real, changePercent: real)

  function Listing(symbol: string, price: real, volatility: real): Stock {
    Stock(symbol, price, volatility, None, None, None)
  }

  /** The table the simulator starts from. */
  function InitialStocks(): (r: seq<Stock>)
    ensures |r| == 8
    ensures forall i, j :: 0 <= i < j < |r| ==> r[i].symbol != r[j].symbol
    ensures forall i :: 0 <= i < |r| ==> 0.0 < r[i].volatility < 0.05
    ensures forall i :: 0 <= i < |r| ==> r[i].change == None && r[i].changePercent == None && r[i].timestamp == None
  {
    [ Listing("AAPL", 175.50, 0.02),
      Listing("GOOGL", 140.25, 0.025),
      Listing("MSFT", 380.75, 0.018),
      Listing("AMZN", 155.30, 0.022),
      Listing("TSLA", 242.80, 0.035),
      Listing("META", 485.20, 0.028),
      Listing("NVDA", 495.50, 0.03),
      Listing("NFLX", 475.60, 0.026) ]
  }

  /** Every stored price is at least the floor and a whole number of cents. */
  predicate ValidTable(table: seq<Stock>) {
    forall i :: 0 <= i < |table| ==> table[i].price >= MinPrice && IsCents(table[i].price)
  }

  /** A value of `Math.random()`. */
  predicate IsDraw(u: real) {
    0.0 <= u < 1.0
  }

  predicate ValidDraws(draws: seq<real>) {
    forall i :: 0 <= i < |draws| ==> IsDraw(draws[i])
  }

  function Abs(x: real): real {
    if x < 0.0 then -x else x
  }

  lemma ScaledByUnitBounded(a: real, c: real)
    requires -1.0 <= c <= 1.0
    ensures Abs(a * c) <= Abs(a)
  {
    if a >= 0.0 {
      if c >= 0.0 {
        assert a * c <= a * 1.0;
      } else {
        assert a * (-c) <= a * 1.0;
      }
    } else {
      if c >= 0.0 {
        assert (-a) * c <= (-a) * 1.0;
      } else {
        assert (-a) * (-c) <= (-a) * 1.0;
      }
    }
  }

  /** The random perturbation for a price: `price * volatility * (u - 0.5) * 2`
      for a draw `u` in [0, 1), so at most `price * volatility` either way. */
  function GeneratePriceChange(price: real, volatility: real, u: real): (change: real)
    requires IsDraw(u)
    ensures Abs(change) <= Abs(price * volatility)
    ensures volatility == 0.0 ==> change == 0.0
  {
    var scale := price * volatility;
    var unit := (u - 0.5) * 2.0;
    ScaledByUnitBounded(scale, unit);
    scale * unit
  }

  /** The step before rounding: the clamped new price and the percentage
      change measured against the old price. */
  function PriceMove(s: Stock, u: real): (m: Move)
    requires s.price > 0.0 && IsDraw(u)
    ensures m.newPrice >= MinPrice
    ensures m.newPrice >= s.price + m.change
    ensures m.newPrice == s.price + m.change || m.newPrice == MinPrice
    ensures Abs(m.change) <= Abs(s.price * s.volatility)
    ensures m.changePercent * s.price == (m.newPrice - s.price) * 100.0
  {
    var change := GeneratePriceChange(s.price, s.volatility, u);
    var newPrice := if s.price + change > MinPrice then s.price + change else MinPrice;
    var percent := (newPrice - s.price) / s.price * 100.0;
    assert percent * s.price == (newPrice - s.price) * 100.0;
    Move(change, newPrice, percent)
  }

  /** While the clamp does not fire the new price moves by exactly the change,
      and the percentage is the change relative to the old price. */
  lemma UnclampedMove(s: Stock, u: real)
    requires s.price > 0.0 && IsDraw(u)
    requires s.price + PriceMove(s, u).change >= MinPrice
    ensures PriceMove(s, u).newPrice - s.price == PriceMove(s, u).change
    ensures PriceMove(s, u).changePercent == PriceMove(s, u).change / s.price * 100.0
  {
  }

  /** One instrument after one update: the rounded move, stamped with `now`. */
  function UpdateStock(s: Stock, u: real, now: int): (r: Stock)
    requires s.price > 0.0 && IsDraw(u)
    ensures r.symbol == s.symbol && r.volatility == s.volatility
    ensures r.price >= MinPrice && IsCents(r.price)
    ensures r.timestamp == Some(now)
    ensures r.change.Some? && r.changePercent.Some?
    ensures IsCents(r.change.value) && IsCents(r.changePercent.value)
    ensures Abs(r.price - PriceMove(s, u).newPrice) <= 0.005
    ensures Abs(r.change.value - PriceMove(s, u).change) <= 0.005
    ensures Abs(r.changePercent.value - PriceMove(s, u).changePercent) <= 0.005
    ensures PriceMove(s, u).newPrice - 0.005 < r.price
    ensures PriceMove(s, u).change >= 0.0 ==> PriceMove(s, u).change - 0.005 < r.change.value
    ensures PriceMove(s, u).change < 0.0 ==> r.change.value < PriceMove(s, u).change + 0.005
    ensures PriceMove(s, u).changePercent >= 0.0 ==> PriceMove(s, u).changePercent - 0.005 < r.changePercent.value
    ensures PriceMove(s, u).changePercent < 0.0 ==> r.changePercent.value < PriceMove(s, u).changePercent + 0.005
  {
    var m := PriceMove(s, u);
    Round2KeepsCent(m.newPrice);
    s.(price := Round2(m.newPrice),
       change := Some(Round2(m.change)),
       changePercent := Some(Round2(m.changePercent)),
       timestamp := Some(now))
  }

  /** One update pass over the whole table, one draw per instrument. */
  function UpdatePrices(table: seq<Stock>, draws: seq<real>, now: int): (r: seq<Stock>)
    requires |draws| == |table| && ValidDraws(draws)
    requires forall i :: 0 <= i < |table| ==> table[i].price > 0.0
    ensures |r| == |table|
    ensures ValidTable(r)
    ensures forall i :: 0 <= i < |r| ==> r[i].symbol == table[i].symbol && r[i].volatility == table[i].volatility
    ensures forall i :: 0 <= i < |r| ==> r[i].timestamp == Some(now)
    ensures forall i :: 0 <= i < |r| ==> r[i] == UpdateStock(table[i], draws[i], now)
  {
    seq(|table|, i requires 0 <= i < |table| => UpdateStock(table[i], draws[i], now))
  }

  /** Zero volatility is deterministic: no change, and a price already in
      cents comes back unchanged. */
  lemma ZeroVolatilityKeepsPrice(s: Stock, u: real, now: int)
    requires s.price >= MinPrice && IsCents(s.price) && IsDraw(u)
    requires s.volatility == 0.0
    ensures UpdateStock(s, u, now).price == s.price
    ensures UpdateStock(s, u, now).change == Some(0.0)
    ensures UpdateStock(s, u, now).changePercent == Some(0.0)
  {
    Round2OfCents(s.price);
    Round2OfCents(0.0);
  }

  /** The price table as read by a new client or the HTTP route: every entry
      as stored, stamped with the read time. */
  function GetCurrentPrices(table: seq<Stock>, now: int): (r: seq<Stock>)
    ensures |r| == |table|
    ensures forall i :: 0 <= i < |r| ==> r[i].timestamp == Some(now)
    ensures forall i :: 0 <= i < |r| ==> r[i].(timestamp := table[i].timestamp) == table[i]
  {
    seq(|table|, i requires 0 <= i < |table| => table[i].(timestamp := Some(now)))
  }

  /** Draw vectors that fit a table of `n` instruments, one per round. */
  predicate ValidRounds(rounds: seq<seq<real>>, n: nat) {
    forall k :: 0 <= k < |rounds| ==> |rounds[k]| == n && ValidDraws(rounds[k])
  }

  /** The table after one update per round, each at its own time. Every
      round keeps the floor, so the division by the old price in the next
      round is always defined. */
  function Simulate(table: seq<Stock>, rounds: seq<seq<real>>, times: seq<int>): (r: seq<Stock>)
    requires ValidTable(table)
    requires |times| == |rounds| && ValidRounds(rounds, |table|)
    ensures ValidTable(r)
    ensures |r| == |table|
    ensures forall i :: 0 <= i < |r| ==> r[i].symbol == table[i].symbol && r[i].volatility == table[i].volatility
    decreases |rounds|
  {
    if |rounds| == 0 then table
    else
      var k := |rounds| - 1;
      var before := Simulate(table, rounds[..k], times[..k]);
      UpdatePrices(before, rounds[k], times[k])
  }

  /** The starting table already satisfies the floor. */
  lemma InitialStocksValid()
    ensures ValidTable(InitialStocks())
    ensures |InitialStocks()| == 8
  {
    var t := InitialStocks();
    forall i | 0 <= i < |t|
      ensures t[i].price >= MinPrice && IsCents(t[i].price)
    {
      var cents := [17550, 14025, 38075, 15530, 24280, 48520, 49550, 47560];
      assert t[i].price * 100.0 == cents[i] as real;
    }
  }

  /** Price floor: from the starting table, no sequence of updates ever drives a
      stored price below one cent. */
  lemma PricesStayAboveFloor(rounds: seq<seq<real>>, times: seq<int>)
    requires |times| == |rounds| && ValidRounds(rounds, 8)
    ensures ValidTable(InitialStocks()) && ValidTable(Simulate(InitialStocks(), rounds, times))
  {
    InitialStocksValid();
  }
}

=== FILE: wrappers.dfy ===
/** Optional values: the model's stand-in for JavaScript's `undefined`. */
module Wrappers {

  datatype Option<+T> = None | Some(value: T)
}
